=== FILE: README.md ===
# camctrl in Dafny

A model of `camctrl.py`, a Python 2 module that drives a Foscam IP camera
over HTTP, together with proofs about it. The model covers four parts:

- **The decoder-control command table.** `Commands` holds one constructor per
  named command, its numeric code, and the stop command of each of the four
  timed moves.
- **Command dispatch.** `Dispatch` builds the request target
  `/decoder_control.cgi?command=<code>`. Each exchange with the camera is a
  parameter, `Delivery`, because the exchange can fail in two ways. The
  camera is a recorder: the trace lists the requests that reached it, and
  the caller's `time.sleep` appears as an opaque `Wait` between them. The
  `tilt_up`, `tilt_down`, `pan_left`, `pan_right`, `ir_on` and `ir_off`
  helpers are sequences of dispatches over that trace.
- **Snapshot naming.** `Calendar` and `Snapshot` model the two renderings of
  one `datetime` value that `snapshot` uses:
  - the directory `<host>/<YYYY-MM-DD>` comes from `date.isoformat()`, the
    calendar-date extended format of section 4.1.2.2 of ISO 8601:2004;
  - the file name `img_<YYYYMMDDHHMMSS>.jpg` comes from `strftime`.

  Each rendering has a parser that inverts it. `Digits` supplies the
  zero-padded `%0Nd` fields and the unpadded `str(int)`.
- **Snapshot persistence.** `FileSystem` is a map from path to directory or
  file bytes. It carries `os.makedirs` with the `EEXIST`-and-directory
  handler of `snapshot`, and the `O_CREAT | O_EXCL` create followed by the
  write.

The HTTP fetch and the clock are parameters of the model rather than
effects; the sleep is an opaque `Wait` event in the trace. The failures the model distinguishes are values of `Results.Error`.

Two points where the Python behaviour is easy to misread:

- A name collision is an error, not a log line. `os.open` with `O_EXCL` on
  an existing name raises `OSError`. In Python 2, `OSError` is not a subclass
  of `IOError`, so the `except IOError` at camctrl.py:113 does not catch it.
  `snapshot` therefore fails with `AlreadyExists` and does not return the
  name.
- Python 2's `datetime.strftime` raises `ValueError` for a year before 1900,
  so `ImageName` fails with `YearBefore1900` for such years.
  `date.isoformat()` has no such limit: it prints the year as `%04d`.

## Model

| member | source | states |
|---|---|---|
| Commands.Code | camctrl.py:24-44 | every action's code is one of the table's values (0-7, 20-21, 25-29, 90-95); `FromCodeOfCode` and `MoveCodePairs` pin which one |
| Commands.FromCodeDefinedOnTable | camctrl.py:24-44 | a code decodes to an action exactly when the table defines it |
| Commands.FromCode | camctrl.py:24-44 | a code that names an action names the action whose table code it is |
| Commands.FromCodeOfCode | camctrl.py:24-44 | every action's code decodes back to that action |
| Commands.CodeInjective | camctrl.py:24-44 | two actions share a code only if they are the same action |
| Commands.StopOf | camctrl.py:24-31 | a stop command exists exactly for the four timed moves; it differs from the move and is not itself a timed move |
| Commands.StopCodeDiffers | camctrl.py:24-31 | each timed move's stop code differs from its start code |
| Commands.StopOfInjective | camctrl.py:24-31 | distinct timed moves are stopped by distinct commands |
| Commands.MoveCodePairs | camctrl.py:24-44 | the start/stop codes are 0/1 (tilt up), 2/3 (tilt down), 6/5 (pan left) and 4/7 (pan right); IR on is 95 and IR off is 94 |
| Digits.ParseDigits | camctrl.py:98 | a string of k digits denotes a number below 10^k |
| Digits.PadDigits | camctrl.py:98 | `%0Nd` of a number below 10^N is exactly N digits |
| Digits.ParseDigitsOfPad | camctrl.py:98 | reading a zero-padded rendering gives back the number |
| Digits.PadDigitsOfParse | camctrl.py:98 | every N-digit string is the zero-padded rendering of the number it denotes |
| Digits.Decimal | camctrl.py:62 | `str(n)` is a non-empty digit string with no leading zero that denotes n |
| Digits.DecimalOfParse | camctrl.py:62 | every non-empty digit string without a leading zero is `str` of its value |
| Calendar.IsoDate | camctrl.py:54 | `isoformat()` of a date is 10 characters: a four-digit year, a dash, a two-digit month, a dash and a two-digit day |
| Calendar.ParseIsoDateOfIsoDate | camctrl.py:54 | parsing the ISO rendering of a valid date gives the date back |
| Calendar.IsoDateOfParse | camctrl.py:54 | every string the ISO parser accepts is the rendering of the date it returns |
| Calendar.IsoDateInjective | camctrl.py:54 | two valid dates render alike exactly when they are equal |
| Calendar.Stamp | camctrl.py:98 | `strftime("%Y%m%d%H%M%S")` of a timestamp from 1900 on is 14 digits |
| Calendar.ParseStampOfStamp | camctrl.py:98 | reading the 14 digits back gives the year, month, day, hour, minute and second that were written |
| Calendar.StampOfParse | camctrl.py:98 | every 14-digit string the stamp parser accepts is the stamp of the timestamp it returns |
| Calendar.StampDatePrefix | camctrl.py:97-99 | the first 8 digits of the stamp are the ISO date of the same moment without its dashes |
| Dispatch.Target | camctrl.py:61-62 | the request target is the decoder-control path followed by digits only |
| Dispatch.ParseTargetOfTarget | camctrl.py:61-62 | the camera reads back from the target exactly the code it was built for |
| Dispatch.TargetOfParse | camctrl.py:61-62 | every well-formed decoder-control target is the one built for the code it carries |
| Dispatch.TargetInjective | camctrl.py:61-62 | distinct codes go to distinct targets |
| Dispatch.TargetExamples | camctrl.py:61-62 | codes 6, 5 and 95 are sent as `command=6`, `command=5` and `command=95` |
| Dispatch.Attempt | camctrl.py:63-69 | one attempt adds at most one request and never a wait; the camera receives the code unless the connection was refused |
| Dispatch.DecoderControlTarget | camctrl.py:61-66 | unless the connection is refused, `decoder_control(c, host)` adds one request, to `host`, whose target is "/decoder_control.cgi?command=" followed by `c` in decimal and reads back as `c` |
| Dispatch.DecoderControl | camctrl.py:57-75 | `decoder_control` only appends to the trace; it appends exactly the attempt; it succeeds with the response body iff the exchange was delivered; a refused connection raises the connect error and a failed read raises the transport error |
| Dispatch.TimedMove | camctrl.py:121-162 | a timed move succeeds iff both exchanges are delivered; a failed start adds only its own attempt; a delivered start adds the start attempt, a wait and the stop attempt; a refused connection on the failing dispatch raises the connect error and a failed read raises the transport error |
| Dispatch.TimedMoveCodes | camctrl.py:121-162 | the codes the camera receives are the start code unless refused, then the stop code only after a delivered start and an unrefused stop |
| Dispatch.TimedMoveStopsOnlyAfterStart | camctrl.py:121-162 | the stop code arrives iff the start was delivered and the stop connection was not refused; the caller waits iff the start was delivered |
| Dispatch.TimedMoveWith | camctrl.py:121-162 | a timed move with table codes a and b: succeeds iff both exchanges are delivered; adds the attempt of a alone on a failed start, or the attempt of a, a wait and the attempt of b; raises the connect or transport error of the failing dispatch; the camera receives exactly [a, b] when both are delivered and never b after a failed start |
| Dispatch.TiltUp | camctrl.py:121-129 | succeeds iff both exchanges are delivered; a failed start adds only the attempt of code 0 to `host`; a delivered start adds the attempt of 0, a wait, then the attempt of 1, all to `host`; a refused connection raises the connect error and a failed read the transport error; with both delivered the camera receives exactly [0, 1] |
| Dispatch.TiltDown | camctrl.py:132-140 | succeeds iff both exchanges are delivered; a failed start adds only the attempt of code 2 to `host`; a delivered start adds the attempt of 2, a wait, then the attempt of 3, all to `host`; a refused connection raises the connect error and a failed read the transport error; with both delivered the camera receives exactly [2, 3] |
| Dispatch.PanLeft | camctrl.py:143-151 | succeeds iff both exchanges are delivered; a failed start adds only the attempt of code 6 to `host`; a delivered start adds the attempt of 6, a wait, then the attempt of 5, all to `host`; a refused connection raises the connect error and a failed read the transport error; with both delivered the camera receives exactly [6, 5] |
| Dispatch.PanRight | camctrl.py:154-162 | succeeds iff both exchanges are delivered; a failed start adds only the attempt of code 4 to `host`; a delivered start adds the attempt of 4, a wait, then the attempt of 7, all to `host`; a refused connection raises the connect error and a failed read the transport error; with both delivered the camera receives exactly [4, 7] |
| Dispatch.Instant | camctrl.py:165-176 | a single dispatch adds exactly one attempt of the action's code to `host` and no wait; it succeeds iff delivered; a refused connection raises the connect error and a failed read the transport error |
| Dispatch.InstantDecodes | camctrl.py:165-176 | unless the connection is refused, the camera receives exactly one code from `ir_on`/`ir_off`, and the command table decodes it as the action that was sent |
| Dispatch.IrOn | camctrl.py:165-169 | `ir_on` adds exactly one attempt of code 95 to `host` and no wait, so the camera receives [95] unless the connection is refused; the error kinds are those of `decoder_control` |
| Dispatch.IrOff | camctrl.py:172-176 | `ir_off` adds exactly one attempt of code 94 to `host` and no wait, so the camera receives [94] unless the connection is refused; the error kinds are those of `decoder_control` |
| FileSystem.MakeDirs | camctrl.py:100-106 | an existing directory is left unchanged and the call succeeds; an existing non-directory fails; otherwise the call succeeds iff no ancestor is a file, and the path becomes a directory; old entries are kept; every new entry is a directory on the path |
| FileSystem.MakeDirsPreservesWf | camctrl.py:100-106 | after success every ancestor of the path is a directory, and a well-formed tree stays well-formed |
| FileSystem.MakeDirsIdempotent | camctrl.py:100-106 | ensuring a directory twice leaves the same tree as ensuring it once |
| FileSystem.CreateExclusive | camctrl.py:108-112 | an existing name fails with "already exists"; the call succeeds iff the name is free and its ancestors are directories; on success the name holds exactly the payload and no other entry changes |
| FileSystem.CreateExclusivePreservesWf | camctrl.py:108-112 | a successful exclusive create keeps the tree well-formed |
| FileSystem.CreateExclusiveOnce | camctrl.py:108-112 | a second exclusive create of the same name fails and the first payload survives |
| Snapshot.GetImagePath | camctrl.py:47-54 | the path is the host, a '/', then a string that parses back to the date of `now` |
| Snapshot.GetImagePathDateOnly | camctrl.py:47-54 | two timestamps give the same path for a host iff they fall on the same day |
| Snapshot.ImageName | camctrl.py:97-98 | the name fails iff the year is before 1900; otherwise it is 22 characters: "img_", 14 digits, ".jpg" |
| Snapshot.ParseImageNameOfImageName | camctrl.py:98 | reading an image name back gives the timestamp it was made from |
| Snapshot.ImageNameOfParse | camctrl.py:98 | every name the parser accepts is the image name of the timestamp it returns |
| Snapshot.ImageNameInjective | camctrl.py:98 | two snapshots get the same name iff they are taken in the same second |
| Snapshot.ImageNameMatchesDirectory | camctrl.py:97-99 | the 8 digits after "img_" are the directory's ISO date without dashes |
| Snapshot.ImageNameHasNoSlash | camctrl.py:98-110 | an image name contains no '/', so it names an entry directly inside the image directory |
| Snapshot.ImageDirectory | camctrl.py:99 | the directory is "/var/www/chadcam/img", a '/', the host, a '/', and a 10-character string that parses back to the date of `now` |
| Snapshot.ImageFile | camctrl.py:110 | the file path is the image directory, a '/', then the name; for a name without '/' its ancestors are exactly the directory and the directory's ancestors |
| Snapshot.StoreImage | camctrl.py:100-118 | on success the returned name is the one the file was created under, and that file holds the payload; when makedirs cannot ensure the directory it fails with "not a directory" and the tree is unchanged; when the directory can be ensured but the file name is taken it fails with "already exists"; old entries are kept; every new entry is the directory, one of its ancestors, or (on success) the file, and every new entry but the file is a directory |
| Snapshot.TakeSnapshot | camctrl.py:78-118 | fetch failures propagate and leave the tree unchanged; a delivered fetch with a year before 1900 fails with the strftime error before anything is created; from 1900 on, a delivered fetch fails with "not a directory" and an unchanged tree when makedirs cannot ensure the image directory, and with "already exists" when the directory can be ensured but the image file is taken; on success the fetch was delivered, the returned name is the image name of `now`, and the image file holds the response body; old entries are kept; every new entry is the image directory, one of its ancestors, or (on success) the image file, and every new entry but the file is a directory |
| Snapshot.SnapshotSucceedsIff | camctrl.py:78-118 | on a well-formed tree a snapshot succeeds iff the fetch was delivered, the year is at least 1900, the directory can be ensured and the file name is free; the tree stays well-formed |
| Snapshot.SameSecondWritesOnce | camctrl.py:108-112 | of two snapshots of one host in the same second at most one writes; the second fails with "already exists" and the file keeps the first payload; when the first can succeed it does |
| Snapshot.SnapshotOnEmptyTree | camctrl.py:99-112 | on an empty tree a delivered snapshot from 1900 on succeeds and creates its file with the payload |

## Left out

- The HTTP transport is not modelled. This covers `httplib` connections, the request and response objects, the Basic-Auth header and the `auth`/`port` globals. Each exchange is a `Delivery` parameter instead.
- A failure in `getresponse` is folded into `ReadFailed`. Only the request/read split matters to the trace.
- The snapshot fetch is likewise a `Delivery` parameter. Its target (`/snapshot.cgi?user=admin`) is not modelled.
- `time.sleep(move_interval)`, `DEFAULT_MI` and the float interval are left out. The sleep is an opaque `Wait` event, because real time and floating point are out of scope.
- `datetime.datetime.now()` and the `if not now` default are left out: `now` is always a parameter. The same goes for the `"default"` host default, since a caller that omits the host is not modelled.
- Microseconds of `datetime` are left out, because no rendering uses them.
- The `O_EXLOCK` advisory lock and concurrent snapshots from several processes are left out. Only sequential exclusive-create semantics are modelled.
- The model assumes a platform that defines `os.O_EXLOCK` (BSD, macOS). Elsewhere, Linux for example, evaluating the flags at camctrl.py:111 raises `AttributeError`, so `snapshot` fails after `makedirs` and never writes.
- Other exceptions that can escape are not distinguished. `httplib.BadStatusLine` from `getresponse` is folded into `ReadFailed`. Every `os.makedirs` failure other than "exists as a directory" is `NotADirectory`, including `EACCES`.
- A partial `os.write` is not modelled: the payload is written whole. The file mode 0644 and the descriptor close in `finally` (camctrl.py:115-117) are also left out.
- Paths are plain strings. There is no normalisation of `.`, `..` or repeated '/', and the ancestors of a path are its prefixes that end before a '/'.
- The `print` in the `except IOError` handler is unreachable for the errors modelled here, so it has no counterpart.
- The `__main__` command-line shim with `eval` (camctrl.py:179-197) is command-line plumbing that builds code from strings.
- `PTZ_TYPE` and `PTZ_STOP` are aliases of codes 0 and 1. `R320_240` and `R64move_interval80` are resolution values, not decoder commands. None of the four has an `Action` constructor.
- Codes are non-negative, as every code in the table is. `str` of a negative integer is not modelled.
- Dispatch.DecoderControl: the recorded request holds the code, not the target string. The target it stands for is `Target(code)`, and `DecoderControlTarget`, `ParseTargetOfTarget` and `TargetInjective` show that the code and the target carry the same information.
- Dispatch.Target: its contract gives the prefix and the digit-only tail. That the tail is exactly `str(code)` is stated by `ParseTargetOfTarget` and `TargetOfParse`, not by `Target` itself.

=== FILE: calendar.dfy ===
/** Python `datetime` values as the camera module uses them, and the two
    textual renderings it takes of one: `date.isoformat()` and
    `strftime("%Y%m%d%H%M%S")`, each with a parser that inverts it. */
module Calendar {
  import opened Results
  import opened Digits

  /** datetime.MINYEAR and datetime.MAXYEAR. */
  const MinYear := 1
  const MaxYear := 9999

  datatype Date = Date(year: int, month: int, day: int)

  /** A `datetime.datetime` without its microseconds, which no rendering here uses. */
  datatype Timestamp = Timestamp(year: int, month: int, day: int, hour: int, minute: int, second: int)

  function DateOf(t: Timestamp): Date {
    Date(t.year, t.month, t.day)
  }

  /** The proleptic Gregorian leap-year rule of Python's `datetime`. */
  predicate IsLeapYear(y: int) {
    y % 4 == 0 && (y % 100 != 0 || y % 400 == 0)
  }

  function DaysInMonth(y: int, m: int): (n: int)
    requires 1 <= m <= 12
    ensures 28 <= n <= 31
  {
    if m == 2 then (if IsLeapYear(y) then 29 else 28)
    else if m == 4 || m == 6 || m == 9 || m == 11 then 30
    else 31
  }

  /** The dates a `datetime.date` can hold. */
  predicate ValidDate(d: Date) {
    && MinYear <= d.year <= MaxYear
    && 1 <= d.month <= 12
    && 1 <= d.day <= DaysInMonth(d.year, d.month)
  }

  /** The timestamps a `datetime.datetime` can hold. */
  predicate Valid(t: Timestamp) {
    && ValidDate(DateOf(t))
    && 0 <= t.hour < 24
    && 0 <= t.minute < 60
    && 0 <= t.second < 60
  }

  lemma Pow10Widths()
    ensures Pow10(2) == 100 && Pow10(4) == 10000
  {
    assert Pow10(1) == 10;
  }

  /** `date.isoformat()`: the calendar-date extended format YYYY-MM-DD of
      ISO 8601 (section 4.1.2.2 of ISO 8601:2004), written `%04d-%02d-%02d`. */
  function IsoDate(d: Date): (s: string)
    requires ValidDate(d)
    ensures |s| == 10 && s[4] == '-' && s[7] == '-'
    ensures DigitsAt(s, 0, 4) && DigitsAt(s, 5, 7) && DigitsAt(s, 8, 10)
  {
    Pow10Widths();
    var y := PadDigits(d.year, 4);
    var m := PadDigits(d.month, 2);
    var dd := PadDigits(d.day, 2);
    var s := y + "-" + m + "-" + dd;
    assert s[0..4] == y && s[5..7] == m && s[8..10] == dd;
    s
  }

  /** Reads YYYY-MM-DD back; `None` unless the shape is right and the date exists. */
  function ParseIsoDate(s: string): (r: Option<Date>)
    ensures r.Some? ==> ValidDate(r.value)
  {
    if |s| == 10 && s[4] == '-' && s[7] == '-'
       && DigitsAt(s, 0, 4) && DigitsAt(s, 5, 7) && DigitsAt(s, 8, 10)
    then
      var d := Date(Field(s, 0, 4), Field(s, 5, 7), Field(s, 8, 10));
      if ValidDate(d) then Some(d) else None
    else None
  }

  /** Reading an ISO date back gives the date that was written. */
  lemma {:induction false} ParseIsoDateOfIsoDate(d: Date)
    requires ValidDate(d)
    ensures ParseIsoDate(IsoDate(d)) == Some(d)
  {
    Pow10Widths();
    var s := IsoDate(d);
    assert s[0..4] == PadDigits(d.year, 4);
    assert s[5..7] == PadDigits(d.month, 2);
    assert s[8..10] == PadDigits(d.day, 2);
    FieldOfPad(s, 0, 4, d.year);
    FieldOfPad(s, 5, 7, d.month);
    FieldOfPad(s, 8, 10, d.day);
  }

  /** Every string `ParseIsoDate` accepts is the ISO rendering of what it returns,
      so `IsoDate` is a bijection between valid dates and well-formed strings. */
  lemma {:induction false} IsoDateOfParse(s: string)
    requires ParseIsoDate(s).Some?
    ensures IsoDate(ParseIsoDate(s).value) == s
  {
    PadDigitsOfField(s, 0, 4);
    PadDigitsOfField(s, 5, 7);
    PadDigitsOfField(s, 8, 10);
    assert s == s[0..4] + "-" + s[5..7] + "-" + s[8..10];
  }

  /** Two dates render alike exactly when they are the same date. */
  lemma {:induction false} IsoDateInjective(d1: Date, d2: Date)
    requires ValidDate(d1) && ValidDate(d2)
    ensures IsoDate(d1) == IsoDate(d2) <==> d1 == d2
  {
    if IsoDate(d1) == IsoDate(d2) {
      ParseIsoDateOfIsoDate(d1);
      ParseIsoDateOfIsoDate(d2);
    }
  }

  /** `strftime("%Y%m%d%H%M%S")` for a year of at least 1900: six fixed-width
      fields with no separators (every such year has exactly four digits). */
  function Stamp(t: Timestamp): (s: string)
    requires Valid(t) && t.year >= 1900
    ensures |s| == 14 && AllDigits(s)
  {
    Pow10Widths();
    var date := PadDigits(t.year, 4) + PadDigits(t.month, 2) + PadDigits(t.day, 2);
    var clock := PadDigits(t.hour, 2) + PadDigits(t.minute, 2) + PadDigits(t.second, 2);
    date + clock
  }

  /** Reads the fourteen digits back into their six fields; `None` unless they
      form a valid timestamp that `strftime` would render. */
  function ParseStamp(s: string): (r: Option<Timestamp>)
    ensures r.Some? ==> Valid(r.value) && r.value.year >= 1900
  {
    if |s| == 14 && AllDigits(s) then
      var t := Timestamp(Field(s, 0, 4), Field(s, 4, 6), Field(s, 6, 8),
                         Field(s, 8, 10), Field(s, 10, 12), Field(s, 12, 14));
      if Valid(t) && t.year >= 1900 then Some(t) else None
    else None
  }

  /** Reading a stamp back gives the timestamp that was written. */
  lemma {:induction false} ParseStampOfStamp(t: Timestamp)
    requires Valid(t) && t.year >= 1900
    ensures ParseStamp(Stamp(t)) == Some(t)
  {
    Pow10Widths();
    var s := Stamp(t);
    assert s[0..4] == PadDigits(t.year, 4);
    assert s[4..6] == PadDigits(t.month, 2);
    assert s[6..8] == PadDigits(t.day, 2);
    assert s[8..10] == PadDigits(t.hour, 2);
    assert s[10..12] == PadDigits(t.minute, 2);
    assert s[12..14] == PadDigits(t.second, 2);
    FieldOfPad(s, 0, 4, t.year);
    FieldOfPad(s, 4, 6, t.month);
    FieldOfPad(s, 6, 8, t.day);
    FieldOfPad(s, 8, 10, t.hour);
    FieldOfPad(s, 10, 12, t.minute);
    FieldOfPad(s, 12, 14, t.second);
  }

  /** Every string `ParseStamp` accepts is the rendering of what it returns. */
  lemma {:induction false} StampOfParse(s: string)
    requires ParseStamp(s).Some?
    ensures Stamp(ParseStamp(s).value) == s
  {
    var t := ParseStamp(s).value;
    assert t == Timestamp(Field(s, 0, 4), Field(s, 4, 6), Field(s, 6, 8),
                          Field(s, 8, 10), Field(s, 10, 12), Field(s, 12, 14));
    StampFieldsJoin(s);
  }

  /** The six fields of a fourteen-digit string, each re-rendered at its
      width, give the string back. */
  lemma {:induction false} StampFieldsJoin(s: string)
    requires |s| == 14 && AllDigits(s)
    ensures (PadDigits(Field(s, 0, 4), 4) + PadDigits(Field(s, 4, 6), 2) + PadDigits(Field(s, 6, 8), 2))
            + (PadDigits(Field(s, 8, 10), 2) + PadDigits(Field(s, 10, 12), 2) + PadDigits(Field(s, 12, 14), 2))
            == s
  {
    ThreeFields(s, 0, 4, 6, 8);
    ThreeFields(s, 8, 10, 12, 14);
    SliceJoin(s, 0, 8, 14);
    assert s[0..14] == s;
  }

  /** Three adjacent digit fields render back to the stretch they span. */
  lemma {:induction false} ThreeFields(s: string, i: nat, j: nat, k: nat, l: nat)
    requires i <= j <= k <= l <= |s| && DigitsAt(s, i, l)
    ensures PadDigits(Field(s, i, j), j - i) + PadDigits(Field(s, j, k), k - j) + PadDigits(Field(s, k, l), l - k)
            == s[i..l]
  {
    PadDigitsOfField(s, i, j);
    PadDigitsOfField(s, j, k);
    PadDigitsOfField(s, k, l);
    SliceJoin(s, i, j, k);
    SliceJoin(s, i, k, l);
  }

  /** The string with every '-' removed. */
  function StripDashes(s: string): (r: string)
    ensures |r| <= |s|
    ensures forall i :: 0 <= i < |r| ==> r[i] != '-'
  {
    if |s| == 0 then []
    else (if s[0] == '-' then [] else [s[0]]) + StripDashes(s[1..])
  }

  lemma {:induction false} StripDashesAppend(a: string, b: string)
    ensures StripDashes(a + b) == StripDashes(a) + StripDashes(b)
  {
    if |a| == 0 {
      assert a + b == b;
    } else {
      assert (a + b)[0] == a[0];
      assert (a + b)[1..] == a[1..] + b;
      StripDashesAppend(a[1..], b);
    }
  }

  lemma {:induction false} StripDashesOfDigits(s: string)
    requires AllDigits(s)
    ensures StripDashes(s) == s
  {
    if |s| > 0 {
      assert AllDigits(s[1..]);
      StripDashesOfDigits(s[1..]);
      assert s == [s[0]] + s[1..];
    }
  }

  /** The first eight digits of the stamp are the ISO date without its dashes. */
  lemma {:induction false} StampDatePrefix(t: Timestamp)
    requires Valid(t) && t.year >= 1900
    ensures Stamp(t)[..8] == StripDashes(IsoDate(DateOf(t)))
  {
    Pow10Widths();
    var y := PadDigits(t.year, 4);
    var m := PadDigits(t.month, 2);
    var d := PadDigits(t.day, 2);
    assert IsoDate(DateOf(t)) == y + "-" + m + "-" + d;
    StripDashesAppend(y + "-" + m + "-", d);
    StripDashesAppend(y + "-" + m, "-");
    StripDashesAppend(y + "-", m);
    StripDashesAppend(y, "-");
    StripDashesOfDigits(y);
    StripDashesOfDigits(m);
    StripDashesOfDigits(d);
    assert StripDashes("-") == [];
    assert Stamp(t)[..8] == y + m + d;
  }
}

=== FILE: commands.dfy ===
/** The Foscam decoder-control command table of `camctrl.py`: one
    constructor per command, its numeric code, and the pairing of each
    timed move with the code that stops it. */
module Commands {
  import opened Results

  datatype Action =
    | TiltUp | TiltUpStop
    | TiltDown | TiltDownStop
    | PanLeft | PanLeftStop
    | PanRight | PanRightStop
    | LeftUp | RightUp | LeftDown | RightDown
    | Center
    | VPatrol | VPatrolStop
    | HPatrol | HPatrolStop
    | PelcoDHPatrol | PelcoDHPatrolStop
    | IrOn | IrOff

  /** The decoder-control codes the constant table defines. */
  predicate IsTableCode(c: int) {
    0 <= c <= 7 || 20 <= c <= 21 || 25 <= c <= 29 || 90 <= c <= 95
  }

  /** The number sent as `command=` for each action: always one of the
      table's codes (and, by `FromCodeOfCode`, a different one per action). */
  function Code(a: Action): (c: nat)
    ensures IsTableCode(c)
  {
    match a
    case TiltUp => 0
    case TiltUpStop => 1
    case TiltDown => 2
    case TiltDownStop => 3
    case PanLeft => 6
    case PanLeftStop => 5
    case PanRight => 4
    case PanRightStop => 7
    case LeftUp => 91
    case RightUp => 90
    case LeftDown => 93
    case RightDown => 92
    case Center => 25
    case VPatrol => 26
    case VPatrolStop => 27
    case HPatrol => 28
    case HPatrolStop => 29
    case PelcoDHPatrol => 20
    case PelcoDHPatrolStop => 21
    case IrOn => 95
    case IrOff => 94
  }

  /** The action a code names, if any. */
  function FromCode(c: int): (r: Option<Action>)
    ensures r.Some? ==> Code(r.value) == c
  {
    if c == 0 then Some(TiltUp)
    else if c == 1 then Some(TiltUpStop)
    else if c == 2 then Some(TiltDown)
    else if c == 3 then Some(TiltDownStop)
    else if c == 4 then Some(PanRight)
    else if c == 5 then Some(PanLeftStop)
    else if c == 6 then Some(PanLeft)
    else if c == 7 then Some(PanRightStop)
    else if c == 20 then Some(PelcoDHPatrol)
    else if c == 21 then Some(PelcoDHPatrolStop)
    else if c == 25 then Some(Center)
    else if c == 26 then Some(VPatrol)
    else if c == 27 then Some(VPatrolStop)
    else if c == 28 then Some(HPatrol)
    else if c == 29 then Some(HPatrolStop)
    else if c == 90 then Some(RightUp)
    else if c == 91 then Some(LeftUp)
    else if c == 92 then Some(RightDown)
    else if c == 93 then Some(LeftDown)
    else if c == 94 then Some(IrOff)
    else if c == 95 then Some(IrOn)
    else None
  }

  /** Decoding a code recovers its action, so no two actions share a code. */
  lemma FromCodeOfCode(a: Action)
    ensures FromCode(Code(a)) == Some(a)
  {
  }

  /** `FromCode` decodes exactly the table's codes. */
  lemma FromCodeDefinedOnTable(c: int)
    ensures FromCode(c).Some? <==> IsTableCode(c)
  {
  }

  lemma CodeInjective(a: Action, b: Action)
    ensures Code(a) == Code(b) <==> a == b
  {
    FromCodeOfCode(a);
    FromCodeOfCode(b);
  }

  /** The four directional moves `camctrl.py` times with a sleep. */
  predicate IsTimedMove(a: Action) {
    a == TiltUp || a == TiltDown || a == PanLeft || a == PanRight
  }

  /** The code that ends a timed move. */
  function StopOf(a: Action): (r: Option<Action>)
    ensures r.Some? <==> IsTimedMove(a)
    ensures r.Some? ==> r.value != a && !IsTimedMove(r.value)
  {
    match a
    case TiltUp => Some(TiltUpStop)
    case TiltDown => Some(TiltDownStop)
    case PanLeft => Some(PanLeftStop)
    case PanRight => Some(PanRightStop)
    case _ => None
  }

  /** A timed move and its stop are sent as different codes. */
  lemma StopCodeDiffers(a: Action)
    requires IsTimedMove(a)
    ensures Code(StopOf(a).value) != Code(a)
  {
  }

  /** Distinct moves are stopped by distinct codes. */
  lemma StopOfInjective(a: Action, b: Action)
    requires IsTimedMove(a) && IsTimedMove(b)
    ensures StopOf(a) == StopOf(b) <==> a == b
  {
  }

  /** The start/stop code pairs of the constant table. */
  lemma MoveCodePairs()
    ensures Code(TiltUp) == 0 && Code(StopOf(TiltUp).value) == 1
    ensures Code(TiltDown) == 2 && Code(StopOf(TiltDown).value) == 3
    ensures Code(PanLeft) == 6 && Code(StopOf(PanLeft).value) == 5
    ensures Code(PanRight) == 4 && Code(StopOf(PanRight).value) == 7
    ensures Code(IrOn) == 95 && Code(IrOff) == 94
  {
  }
}

=== FILE: digits.dfy ===
/** Decimal digit strings: the zero-padded fixed-width fields of `%04d`,
    `%02d` and `strftime`, the unpadded `str(int)` of `urllib.urlencode`,
    and the parser that inverts both. */
module Digits {

  predicate IsDigit(c: char) {
    '0' <= c <= '9'
  }

  predicate AllDigits(s: string) {
    forall i :: 0 <= i < |s| ==> IsDigit(s[i])
  }

  /** s[i..j] is all digits, stated on `s` itself so that fields of a longer
      string need no slicing. */
  predicate DigitsAt(s: string, i: nat, j: nat)
    requires i <= j <= |s|
  {
    forall k :: i <= k < j ==> IsDigit(s[k])
  }

  function DigitValue(c: char): (d: nat)
    requires IsDigit(c)
    ensures d < 10
  {
    c as int - '0' as int
  }

  function DigitChar(d: nat): (c: char)
    requires d < 10
    ensures IsDigit(c) && DigitValue(c) == d
  {
    ('0' as int + d) as char
  }

  lemma DigitCharOfValue(c: char)
    requires IsDigit(c)
    ensures DigitChar(DigitValue(c)) == c
  {
  }

  function Pow10(n: nat): (p: nat)
    ensures p >= 1
  {
    if n == 0 then 1 else 10 * Pow10(n - 1)
  }

  /** The number a string of decimal digits denotes, most significant first. */
  function ParseDigits(s: string): (n: nat)
    requires AllDigits(s)
    ensures n < Pow10(|s|)
  {
    if |s| == 0 then 0
    else
      var init := s[..|s| - 1];
      assert AllDigits(init);
      var m := ParseDigits(init);
      assert m <= Pow10(|s| - 1) - 1;
      10 * m + DigitValue(s[|s| - 1])
  }

  /** The last digit of a string is its value's units digit. */
  lemma ParseDigitsLast(s: string)
    requires AllDigits(s) && |s| > 0
    ensures AllDigits(s[..|s| - 1])
    ensures ParseDigits(s) == 10 * ParseDigits(s[..|s| - 1]) + DigitValue(s[|s| - 1])
  {
  }

  /** `n` written in exactly `width` digits, with leading zeros (printf's `%0<width>d`). */
  function PadDigits(n: nat, width: nat): (s: string)
    requires n < Pow10(width)
    ensures |s| == width
    ensures AllDigits(s)
  {
    if width == 0 then []
    else
      var head := PadDigits(n / 10, width - 1);
      var s := head + [DigitChar(n % 10)];
      assert s[..|s| - 1] == head;
      s
  }

  /** Parsing a padded rendering gives back the number. */
  lemma {:induction false} ParseDigitsOfPad(n: nat, width: nat)
    requires n < Pow10(width)
    ensures ParseDigits(PadDigits(n, width)) == n
  {
    if width > 0 {
      var s := PadDigits(n, width);
      var head := PadDigits(n / 10, width - 1);
      assert s[..|s| - 1] == head;
      ParseDigitsOfPad(n / 10, width - 1);
      ParseDigitsLast(s);
    }
  }

  /** `n` in decimal with no leading zeros (Python's `str` of a non-negative int). */
  function Decimal(n: nat): (s: string)
    ensures |s| >= 1
    ensures AllDigits(s)
    ensures ParseDigits(s) == n
    ensures |s| > 1 ==> s[0] != '0'
  {
    if n < 10 then [DigitChar(n)]
    else
      var head := Decimal(n / 10);
      var s := head + [DigitChar(n % 10)];
      assert s[..|s| - 1] == head;
      s
  }

  /** Appending a digit to a padded rendering renders ten times the number plus that digit. */
  lemma {:induction false} PadDigitsSnoc(m: nat, v: nat, width: nat)
    requires m < Pow10(width) && v < 10
    ensures 10 * m + v < Pow10(width + 1)
    ensures PadDigits(10 * m + v, width + 1) == PadDigits(m, width) + [DigitChar(v)]
  {
    var n := 10 * m + v;
    assert n / 10 == m && n % 10 == v;
  }

  /** A digit string of width w is the padded rendering of its own value. */
  lemma {:induction false} PadDigitsOfParse(s: string)
    requires AllDigits(s)
    ensures PadDigits(ParseDigits(s), |s|) == s
  {
    if |s| > 0 {
      var init, last := s[..|s| - 1], s[|s| - 1];
      ParseDigitsLast(s);
      var m, v := ParseDigits(init), DigitValue(last);
      PadDigitsOfParse(init);
      PadDigitsSnoc(m, v, |init|);
      DigitCharOfValue(last);
      assert s == init + [last];
      assert PadDigits(ParseDigits(s), |s|) == PadDigits(10 * m + v, |init| + 1);
    }
  }

  /** A digit string without a leading zero denotes a positive number. */
  lemma {:induction false} NoLeadingZeroPositive(s: string)
    requires AllDigits(s) && |s| >= 1 && s[0] != '0'
    ensures ParseDigits(s) >= 1
  {
    if |s| > 1 {
      var init := s[..|s| - 1];
      assert AllDigits(init);
      NoLeadingZeroPositive(init);
    }
  }

  /** Canonical decimal strings are exactly the ones `Decimal` produces. */
  lemma {:induction false} DecimalOfParse(s: string)
    requires AllDigits(s) && |s| >= 1
    requires |s| > 1 ==> s[0] != '0'
    ensures Decimal(ParseDigits(s)) == s
  {
    if |s| > 1 {
      var init := s[..|s| - 1];
      assert AllDigits(init);
      NoLeadingZeroPositive(init);
      DecimalOfParse(init);
      var m, v := ParseDigits(init), DigitValue(s[|s| - 1]);
      var n := ParseDigits(s);
      assert n == 10 * m + v && m >= 1;
      assert n / 10 == m && n % 10 == v;
      assert DigitChar(v) == s[|s| - 1];
      assert Decimal(n) == Decimal(m) + [DigitChar(v)];
      assert s == init + [s[|s| - 1]];
    }
  }

  /** Adjacent slices join into the slice they span. */
  lemma SliceJoin(s: string, i: nat, j: nat, l: nat)
    requires i <= j <= l <= |s|
    ensures s[i..j] + s[j..l] == s[i..l]
  {
  }

  /** The value of the digits s[i..j]. */
  function Field(s: string, i: nat, j: nat): (n: nat)
    requires i <= j <= |s| && DigitsAt(s, i, j)
    ensures n < Pow10(j - i)
  {
    assert AllDigits(s[i..j]);
    ParseDigits(s[i..j])
  }

  /** A field holding the padded rendering of `n` has the value `n`. */
  lemma FieldOfPad(s: string, i: nat, j: nat, n: nat)
    requires i <= j <= |s| && n < Pow10(j - i) && s[i..j] == PadDigits(n, j - i)
    ensures DigitsAt(s, i, j) && Field(s, i, j) == n
  {
    assert forall k :: i <= k < j ==> s[k] == s[i..j][k - i];
    ParseDigitsOfPad(n, j - i);
  }

  /** A field of a longer string is the padded rendering of its value. */
  lemma {:induction false} PadDigitsOfField(s: string, i: nat, j: nat)
    requires i <= j <= |s| && DigitsAt(s, i, j)
    ensures PadDigits(Field(s, i, j), j - i) == s[i..j]
  {
    assert AllDigits(s[i..j]);
    PadDigitsOfParse(s[i..j]);
  }
}

=== FILE: dispatch.dfy ===
/** `decoder_control` and the helpers built on it. The camera is a recorder:
    a trace of the requests that reached it, with the caller's sleeps
    between them as opaque `Wait` events. The network is a parameter: for
    each dispatch the caller supplies how the HTTP exchange went. */
module Dispatch {
  import opened Results
  import opened Digits
  import C = Commands

  /** The request target up to the command's value: the CGI path followed by
      what `urllib.urlencode({'command': c})` puts before the number. */
  const TargetPrefix := "/decoder_control.cgi?command="

  /** How one HTTP exchange with the camera ended. */
  datatype Delivery =
    | Delivered(body: seq<byte>)  // request sent, response read
    | ConnectRefused              // `connection.request` raised: nothing reached the camera
    | ReadFailed                  // the request went out but reading the response raised

  /** One GET on the camera's control endpoint; its target is `Target(command)`. */
  datatype Request = Request(host: string, command: nat)

  datatype Event = Sent(request: Request) | Wait

  type Trace = seq<Event>

  /** What a call returned (or raised) and the trace after it. */
  datatype Run<T> = Run(out: Result<T>, trace: Trace)

  /** The request target for a command code. */
  function Target(command: nat): (t: string)
    ensures |t| > |TargetPrefix| && t[..|TargetPrefix|] == TargetPrefix
    ensures AllDigits(t[|TargetPrefix|..])
  {
    var digits := Decimal(command);
    var t := TargetPrefix + digits;
    assert t[|TargetPrefix|..] == digits;
    t
  }

  /** The command code a request target carries, if it is a well-formed
      decoder-control target with a canonical decimal number. */
  function ParseTarget(t: string): (r: Option<nat>)
  {
    var n := |TargetPrefix|;
    if |t| > n && t[..n] == TargetPrefix && AllDigits(t[n..]) && (|t| > n + 1 ==> t[n] != '0')
    then Some(ParseDigits(t[n..]))
    else None
  }

  /** The camera reads back the code a target was built for. */
  lemma {:induction false} ParseTargetOfTarget(command: nat)
    ensures ParseTarget(Target(command)) == Some(command)
  {
    assert Target(command)[|TargetPrefix|..] == Decimal(command);
  }

  /** Every target `ParseTarget` accepts is the one `Target` builds for its code. */
  lemma {:induction false} TargetOfParse(t: string)
    requires ParseTarget(t).Some?
    ensures Target(ParseTarget(t).value) == t
  {
    var n := |TargetPrefix|;
    DecimalOfParse(t[n..]);
    assert t == t[..n] + t[n..];
  }

  /** Distinct codes are sent to distinct targets. */
  lemma {:induction false} TargetInjective(a: nat, b: nat)
    ensures Target(a) == Target(b) <==> a == b
  {
    if Target(a) == Target(b) {
      ParseTargetOfTarget(a);
      ParseTargetOfTarget(b);
    }
  }

  /** The codes an event carries to the camera. */
  function EventCodes(e: Event): seq<nat> {
    match e
    case Wait => []
    case Sent(req) => [req.command]
  }

  /** The codes the camera received, in order. */
  function SentCodes(trace: Trace): seq<nat> {
    if |trace| == 0 then []
    else SentCodes(trace[..|trace| - 1]) + EventCodes(trace[|trace| - 1])
  }

  lemma {:induction false} SentCodesAppend(a: Trace, b: Trace)
    ensures SentCodes(a + b) == SentCodes(a) + SentCodes(b)
  {
    if |b| == 0 {
      assert a + b == a;
    } else {
      var b' := b[..|b| - 1];
      assert (a + b)[..|a + b| - 1] == a + b';
      SentCodesAppend(a, b');
    }
  }

  /** A `Wait` between two stretches of a trace carries no code. */
  lemma {:induction false} SentCodesAroundWait(a: Trace, b: Trace)
    ensures SentCodes(a + [Wait] + b) == SentCodes(a) + SentCodes(b)
  {
    var aw := a + [Wait];
    assert aw[..|aw| - 1] == a;
    assert SentCodes(aw) == SentCodes(a);
    SentCodesAppend(aw, b);
  }

  /** The events a call added to the trace it was given. */
  function Added(before: Trace, after: Trace): Trace
    requires |before| <= |after|
  {
    after[|before|..]
  }

  predicate Extends(after: Trace, before: Trace) {
    |before| <= |after| && after[..|before|] == before
  }

  /** What reaches the camera when one dispatch of `command` is attempted:
      the GET of its target unless the connection was refused. */
  function Attempt(host: string, command: nat, link: Delivery): (t: Trace)
    ensures |t| <= 1 && Wait !in t
    ensures SentCodes(t) == (if link.ConnectRefused? then [] else [command])
  {
    var t := if link.ConnectRefused? then [] else [Sent(Request(host, command))];
    assert t[..0] == [];
    t
  }

  /** `decoder_control(command, host)`: one GET of the command's target. */
  function DecoderControl(command: nat, host: string, link: Delivery, trace: Trace): (r: Run<seq<byte>>)
    ensures Extends(r.trace, trace)
    ensures Added(trace, r.trace) == Attempt(host, command, link)
    ensures r.out.Ok? <==> link.Delivered?
    ensures link.Delivered? ==> r.out.value == link.body
    ensures link.ConnectRefused? ==> r.out == Err(ConnectFailed)
    ensures link.ReadFailed? ==> r.out == Err(TransportFailed)
  {
    var sent := [Sent(Request(host, command))];
    match link
    case ConnectRefused =>
      assert Added(trace, trace) == [];
      Run(Err(ConnectFailed), trace)
    case ReadFailed =>
      assert Added(trace, trace + sent) == sent;
      Run(Err(TransportFailed), trace + sent)
    case Delivered(body) =>
      assert Added(trace, trace + sent) == sent;
      Run(Ok(body), trace + sent)
  }

  /** The stop code of a timed move. */
  function StopCode(move: C.Action): nat
    requires C.IsTimedMove(move)
  {
    C.Code(C.StopOf(move).value)
  }

  /** What a timed move with start code `a` and stop code `b` does to `trace`
      and returns: it only appends; it succeeds iff both exchanges are
      delivered; a failed start adds only the attempt of `a`; a delivered
      start adds the attempt of `a`, a wait and the attempt of `b`, all to
      `host`; the failing dispatch's refused connection is the connect error
      and its failed read the transport error. */
  predicate TimedMoveShape(host: string, a: nat, b: nat, start: Delivery, stop: Delivery, trace: Trace, r: Run<()>) {
    && Extends(r.trace, trace)
    && (r.out.Ok? <==> start.Delivered? && stop.Delivered?)
    && (!start.Delivered? ==> Added(trace, r.trace) == Attempt(host, a, start))
    && (start.Delivered? ==> Added(trace, r.trace) == Attempt(host, a, start) + [Wait] + Attempt(host, b, stop))
    && (start.ConnectRefused? || (start.Delivered? && stop.ConnectRefused?) ==> r.out == Err(ConnectFailed))
    && (start.ReadFailed? || (start.Delivered? && stop.ReadFailed?) ==> r.out == Err(TransportFailed))
  }

  /** A timed move: send the start code, wait, send the matching stop code.
      An error from the start dispatch propagates before the wait, so the
      stop code is then never sent. */
  function TimedMove(move: C.Action, host: string, start: Delivery, stop: Delivery, trace: Trace): (r: Run<()>)
    requires C.IsTimedMove(move)
    ensures TimedMoveShape(host, C.Code(move), StopCode(move), start, stop, trace, r)
  {
    var r1 := DecoderControl(C.Code(move), host, start, trace);
    if !start.Delivered? then
      Run(Err(r1.out.error), r1.trace)
    else
      var waited := r1.trace + [Wait];
      var r2 := DecoderControl(StopCode(move), host, stop, waited);
      assert r2.trace == trace + Attempt(host, C.Code(move), start) + [Wait] + Attempt(host, StopCode(move), stop);
      Run(if r2.out.Ok? then Ok(()) else Err(r2.out.error), r2.trace)
  }

  /** The codes a timed move delivers to the camera: the start code unless the
      connection was refused, and the stop code only after a delivered start. */
  lemma {:induction false} TimedMoveCodes(move: C.Action, host: string, start: Delivery, stop: Delivery, trace: Trace)
    requires C.IsTimedMove(move)
    ensures var r := TimedMove(move, host, start, stop, trace);
            SentCodes(Added(trace, r.trace))
            == (if start.ConnectRefused? then [] else [C.Code(move)])
               + (if start.Delivered? && !stop.ConnectRefused? then [StopCode(move)] else [])
  {
    var r := TimedMove(move, host, start, stop, trace);
    var first := Attempt(host, C.Code(move), start);
    if start.Delivered? {
      SentCodesAroundWait(first, Attempt(host, StopCode(move), stop));
    }
  }

  /** The stop code reaches the camera only if the start dispatch succeeded,
      and the caller waits exactly when it did. */
  lemma {:induction false} TimedMoveStopsOnlyAfterStart(move: C.Action, host: string, start: Delivery, stop: Delivery, trace: Trace)
    requires C.IsTimedMove(move)
    ensures var r := TimedMove(move, host, start, stop, trace);
            && (StopCode(move) in SentCodes(Added(trace, r.trace)) <==> start.Delivered? && !stop.ConnectRefused?)
            && (Wait in Added(trace, r.trace) <==> start.Delivered?)
  {
    var r := TimedMove(move, host, start, stop, trace);
    var first, second := Attempt(host, C.Code(move), start), Attempt(host, StopCode(move), stop);
    TimedMoveCodes(move, host, start, stop, trace);
    C.StopCodeDiffers(move);
    if start.Delivered? {
      assert Added(trace, r.trace) == first + [Wait] + second;
      assert (first + [Wait] + second)[|first|] == Wait;
    }
  }

  /** A timed move whose table codes are `startCode` and `stopCode`, stated
      with the codes as plain numbers: its outcome, its trace, its error
      kinds, and the codes the camera receives. */
  lemma {:induction false} TimedMoveWith(move: C.Action, startCode: nat, stopCode: nat,
                                         host: string, start: Delivery, stop: Delivery, trace: Trace)
    requires C.IsTimedMove(move) && C.Code(move) == startCode && StopCode(move) == stopCode
    ensures var r := TimedMove(move, host, start, stop, trace);
            && TimedMoveShape(host, startCode, stopCode, start, stop, trace, r)
            && (start.Delivered? && stop.Delivered? ==> SentCodes(Added(trace, r.trace)) == [startCode, stopCode])
            && (!start.Delivered? ==> stopCode !in SentCodes(Added(trace, r.trace)))
  {
    var r := TimedMove(move, host, start, stop, trace);
    assert TimedMoveShape(host, C.Code(move), StopCode(move), start, stop, trace, r);
    TimedMoveCodes(move, host, start, stop, trace);
    if !start.Delivered? {
      C.StopCodeDiffers(move);
    }
  }

  /** The `tilt_up`, `tilt_down`, `pan_left` and `pan_right` helpers. When
      both exchanges go through the camera receives exactly the table's
      start code then stop code; when the start fails, no stop code. */
  function TiltUp(host: string, start: Delivery, stop: Delivery, trace: Trace): (r: Run<()>)
    ensures TimedMoveShape(host, 0, 1, start, stop, trace, r)
    ensures start.Delivered? && stop.Delivered? ==> SentCodes(Added(trace, r.trace)) == [0, 1]
    ensures !start.Delivered? ==> 1 !in SentCodes(Added(trace, r.trace))
  {
    C.MoveCodePairs();
    TimedMoveWith(C.TiltUp, 0, 1, host, start, stop, trace);
    TimedMove(C.TiltUp, host, start, stop, trace)
  }

  function TiltDown(host: string, start: Delivery, stop: Delivery, trace: Trace): (r: Run<()>)
    ensures TimedMoveShape(host, 2, 3, start, stop, trace, r)
    ensures start.Delivered? && stop.Delivered? ==> SentCodes(Added(trace, r.trace)) == [2, 3]
    ensures !start.Delivered? ==> 3 !in SentCodes(Added(trace, r.trace))
  {
    C.MoveCodePairs();
    TimedMoveWith(C.TiltDown, 2, 3, host, start, stop, trace);
    TimedMove(C.TiltDown, host, start, stop, trace)
  }

  function PanLeft(host: string, start: Delivery, stop: Delivery, trace: Trace): (r: Run<()>)
    ensures TimedMoveShape(host, 6, 5, start, stop, trace, r)
    ensures start.Delivered? && stop.Delivered? ==> SentCodes(Added(trace, r.trace)) == [6, 5]
    ensures !start.Delivered? ==> 5 !in SentCodes(Added(trace, r.trace))
  {
    C.MoveCodePairs();
    TimedMoveWith(C.PanLeft, 6, 5, host, start, stop, trace);
    TimedMove(C.PanLeft, host, start, stop, trace)
  }

  function PanRight(host: string, start: Delivery, stop: Delivery, trace: Trace): (r: Run<()>)
    ensures TimedMoveShape(host, 4, 7, start, stop, trace, r)
    ensures start.Delivered? && stop.Delivered? ==> SentCodes(Added(trace, r.trace)) == [4, 7]
    ensures !start.Delivered? ==> 7 !in SentCodes(Added(trace, r.trace))
  {
    C.MoveCodePairs();
    TimedMoveWith(C.PanRight, 4, 7, host, start, stop, trace);
    TimedMove(C.PanRight, host, start, stop, trace)
  }

  /** A single dispatch whose response body the caller drops. */
  function Instant(action: C.Action, host: string, link: Delivery, trace: Trace): (r: Run<()>)
    ensures Extends(r.trace, trace)
    ensures Added(trace, r.trace) == Attempt(host, C.Code(action), link)
    ensures r.out.Ok? <==> link.Delivered?
    ensures link.ConnectRefused? ==> r.out == Err(ConnectFailed)
    ensures link.ReadFailed? ==> r.out == Err(TransportFailed)
    ensures SentCodes(Added(trace, r.trace)) == (if link.ConnectRefused? then [] else [C.Code(action)])
  {
    var r := DecoderControl(C.Code(action), host, link, trace);
    Run(if r.out.Ok? then Ok(()) else Err(r.out.error), r.trace)
  }

  /** Unless the connection is refused, the camera receives exactly one code
      from a single dispatch, and its own table reads that code back as the
      action that was sent. */
  lemma {:induction false} InstantDecodes(action: C.Action, host: string, link: Delivery, trace: Trace)
    requires !link.ConnectRefused?
    ensures var received := SentCodes(Added(trace, Instant(action, host, link, trace).trace));
            |received| == 1 && C.FromCode(received[0]) == Some(action)
  {
    C.FromCodeOfCode(action);
  }

  /** `ir_on` and `ir_off`: one dispatch each, no wait, no stop code. */
  function IrOn(host: string, link: Delivery, trace: Trace): (r: Run<()>)
    ensures Extends(r.trace, trace)
    ensures Added(trace, r.trace) == Attempt(host, 95, link)
    ensures r.out.Ok? <==> link.Delivered?
    ensures link.ConnectRefused? ==> r.out == Err(ConnectFailed)
    ensures link.ReadFailed? ==> r.out == Err(TransportFailed)
    ensures SentCodes(Added(trace, r.trace)) == (if link.ConnectRefused? then [] else [95])
  {
    assert C.Code(C.IrOn) == 95;
    Instant(C.IrOn, host, link, trace)
  }

  function IrOff(host: string, link: Delivery, trace: Trace): (r: Run<()>)
    ensures Extends(r.trace, trace)
    ensures Added(trace, r.trace) == Attempt(host, 94, link)
    ensures r.out.Ok? <==> link.Delivered?
    ensures link.ConnectRefused? ==> r.out == Err(ConnectFailed)
    ensures link.ReadFailed? ==> r.out == Err(TransportFailed)
    ensures SentCodes(Added(trace, r.trace)) == (if link.ConnectRefused? then [] else [94])
  {
    assert C.Code(C.IrOff) == 94;
    Instant(C.IrOff, host, link, trace)
  }

  /** The request `decoder_control(c, host)` adds, unless the connection is
      refused, goes to `host` and to the target "/decoder_control.cgi?command="
      followed by `c` in decimal, from which the camera reads back `c`. */
  lemma {:induction false} DecoderControlTarget(command: nat, host: string, link: Delivery, trace: Trace)
    requires !link.ConnectRefused?
    ensures var added := Added(trace, DecoderControl(command, host, link, trace).trace);
            && |added| == 1 && added[0].Sent? && added[0].request.host == host
            && Target(added[0].request.command) == "/decoder_control.cgi?command=" + Decimal(command)
            && ParseTarget(Target(added[0].request.command)) == Some(command)
  {
    ParseTargetOfTarget(command);
  }

  /** `urllib.urlencode({'command': c})` writes the code in plain decimal:
      the pan-left pair and the IR-on code as the camera sees them. */
  lemma {:induction false} TargetExamples()
    ensures Target(6) == "/decoder_control.cgi?command=6"
    ensures Target(5) == "/decoder_control.cgi?command=5"
    ensures Target(95) == "/decoder_control.cgi?command=95"
  {
    assert Decimal(95) == Decimal(9) + [DigitChar(5)];
  }
}

=== FILE: filesystem.dfy ===
/** An abstract filesystem: a map from path to node, with the two
    operations `snapshot` performs on it, `os.makedirs` and `os.open` with
    O_CREAT|O_EXCL followed by `os.write`. Paths are compared as strings;
    the ancestors of a path are its prefixes that end just before a '/'. */
module FileSystem {
  import opened Results

  datatype Node = Directory | File(content: seq<byte>)

  type Fs = map<string, Node>

  function Ancestors(p: string): set<string> {
    set i | 0 < i < |p| && p[i] == '/' :: p[..i]
  }

  predicate IsDir(fs: Fs, p: string) {
    p in fs && fs[p] == Directory
  }

  predicate IsFile(fs: Fs, p: string) {
    p in fs && fs[p].File?
  }

  /** Every entry sits inside directories: no ancestor of an entry is missing or a file. */
  predicate Wf(fs: Fs) {
    forall p, a :: p in fs && a in Ancestors(p) ==> IsDir(fs, a)
  }

  lemma {:induction false} AncestorsTransitive(p: string, a: string, b: string)
    requires a in Ancestors(p) && b in Ancestors(a)
    ensures b in Ancestors(p)
  {
    var i :| 0 < i < |p| && p[i] == '/' && a == p[..i];
    var j :| 0 < j < |a| && a[j] == '/' && b == a[..j];
    assert p[j] == '/' && b == p[..j];
  }

  /** When `MakeDirs` succeeds: the path is a directory already, or it is
      absent and no ancestor is a file. */
  predicate CanMakeDirs(fs: Fs, d: string) {
    if d in fs then IsDir(fs, d) else forall a :: a in Ancestors(d) ==> !IsFile(fs, a)
  }

  /** The ancestors of `d + "/" + name`, for a name without '/', are `d` and its ancestors. */
  lemma {:induction false} AncestorsOfChild(d: string, name: string)
    requires |d| > 0
    requires forall k :: 0 <= k < |name| ==> name[k] != '/'
    ensures Ancestors(d + "/" + name) == Ancestors(d) + {d}
  {
    var p := d + "/" + name;
    assert p[|d|] == '/' && p[..|d|] == d;
    forall a | a in Ancestors(p)
      ensures a in Ancestors(d) + {d}
    {
      var i :| 0 < i < |p| && p[i] == '/' && a == p[..i];
      if i < |d| {
        assert d[i] == '/' && a == d[..i];
      }
    }
    forall a | a in Ancestors(d)
      ensures a in Ancestors(p)
    {
      var i :| 0 < i < |d| && d[i] == '/' && a == d[..i];
      assert p[i] == '/' && a == p[..i];
    }
  }

  /** `os.makedirs(path)` inside the `try` of `snapshot`, with its handler:
      an existing directory is accepted as it is; an existing non-directory,
      or a file where a missing ancestor would have to be created, is an
      error; otherwise the path and every missing ancestor become directories. */
  function MakeDirs(fs: Fs, d: string): (r: Result<Fs>)
    ensures IsDir(fs, d) ==> r == Ok(fs)
    ensures d in fs && !IsDir(fs, d) ==> r == Err(NotADirectory)
    ensures r.Ok? <==> CanMakeDirs(fs, d)
    ensures r.Err? ==> r.error == NotADirectory
    ensures r.Ok? ==> IsDir(r.value, d)
    ensures r.Ok? ==> forall p :: p in fs ==> p in r.value && r.value[p] == fs[p]
    ensures r.Ok? ==> forall p :: p in r.value && p !in fs ==> r.value[p] == Directory && (p == d || p in Ancestors(d))
  {
    if d in fs then
      if fs[d] == Directory then Ok(fs) else Err(NotADirectory)
    else if exists a :: a in Ancestors(d) && IsFile(fs, a) then
      Err(NotADirectory)
    else
      Ok(fs + map p | p in Ancestors(d) + {d} && p !in fs :: Directory)
  }

  /** After a successful `MakeDirs` the directory and all its ancestors exist
      as directories, and a well-formed tree stays well-formed. */
  lemma {:induction false} MakeDirsPreservesWf(fs: Fs, d: string)
    requires Wf(fs)
    requires MakeDirs(fs, d).Ok?
    ensures Wf(MakeDirs(fs, d).value)
    ensures forall a :: a in Ancestors(d) ==> IsDir(MakeDirs(fs, d).value, a)
  {
    var fs' := MakeDirs(fs, d).value;
    if d !in fs {
      forall a | a in Ancestors(d)
        ensures IsDir(fs', a)
      {
        assert !IsFile(fs, a);
      }
      forall p, a | p in fs' && a in Ancestors(p)
        ensures IsDir(fs', a)
      {
        if p in fs {
          assert IsDir(fs, a);
        } else if p == d {
          assert a in Ancestors(d);
        } else {
          AncestorsTransitive(d, p, a);
        }
      }
    }
  }

  /** Ensuring a directory twice leaves the tree as ensuring it once. */
  lemma MakeDirsIdempotent(fs: Fs, d: string)
    requires MakeDirs(fs, d).Ok?
    ensures MakeDirs(MakeDirs(fs, d).value, d) == MakeDirs(fs, d)
  {
  }

  /** `os.open(p, O_CREAT | O_EXCL | ...)` then `os.write` of the whole payload:
      an existing entry makes it fail and nothing changes; otherwise `p`
      holds exactly `data` and no other entry changes. */
  function CreateExclusive(fs: Fs, p: string, data: seq<byte>): (r: Result<Fs>)
    ensures p in fs ==> r == Err(AlreadyExists)
    ensures r.Ok? <==> p !in fs && forall a :: a in Ancestors(p) ==> IsDir(fs, a)
    ensures r.Ok? ==> p in r.value && r.value[p] == File(data)
    ensures r.Ok? ==> forall q :: q != p ==> (q in r.value <==> q in fs)
    ensures r.Ok? ==> forall q :: q in fs ==> r.value[q] == fs[q]
  {
    if p in fs then Err(AlreadyExists)
    else if exists a :: a in Ancestors(p) && !IsDir(fs, a) then Err(MissingParent)
    else Ok(fs[p := File(data)])
  }

  lemma {:induction false} CreateExclusivePreservesWf(fs: Fs, p: string, data: seq<byte>)
    requires Wf(fs)
    requires CreateExclusive(fs, p, data).Ok?
    ensures Wf(CreateExclusive(fs, p, data).value)
  {
    var fs' := CreateExclusive(fs, p, data).value;
    forall q, a | q in fs' && a in Ancestors(q)
      ensures IsDir(fs', a)
    {
      assert IsDir(fs, a);
      assert a != p;
    }
  }

  /** A second exclusive create of the same name fails, and the first
      payload survives. */
  lemma CreateExclusiveOnce(fs: Fs, p: string, first: seq<byte>, second: seq<byte>)
    requires CreateExclusive(fs, p, first).Ok?
    ensures var fs1 := CreateExclusive(fs, p, first).value;
            && CreateExclusive(fs1, p, second) == Err(AlreadyExists)
            && fs1[p] == File(first)
  {
  }
}

=== FILE: results.dfy ===
/** Failure-carrying values shared by the whole model. `Error` names the
    failures this model distinguishes; other exceptions the camera module can
    let escape are folded into these or not modelled. */
module Results {

  datatype Option<+T> = None | Some(value: T)

  /** The failures of `camctrl.py` this model distinguishes. */
  datatype Error =
    | ConnectFailed      // socket.error("connect failed"): the request never reached the camera
    | TransportFailed    // an exception while reading the response (the sslerror handler only re-raises): the request was sent
    | YearBefore1900     // ValueError from Python 2's datetime.strftime
    | NotADirectory      // os.makedirs failed and the path is not an existing directory
    | AlreadyExists      // os.open with O_CREAT|O_EXCL found the name taken (EEXIST)
    | MissingParent      // os.open found no directory to create the file in (ENOENT/ENOTDIR)

  datatype Result<+T> = Ok(value: T) | Err(error: Error)

  /** The raw bytes of an HTTP body or of a file. */
  newtype byte = x: int | 0 <= x < 256
}

=== FILE: snapshot.dfy ===
/** `get_image_path` and `snapshot`: where a camera image is stored and how
    it is written. The HTTP fetch and the clock are parameters. */
module Snapshot {
  import opened Results
  import opened Digits
  import opened Calendar
  import opened FileSystem
  import D = Dispatch

  /** The fixed directory all snapshots are stored under. */
  const ImageRoot := "/var/www/chadcam/img"

  /** `get_image_path(host, now)`: "<host>/<YYYY-MM-DD>". */
  function GetImagePath(host: string, now: Timestamp): (p: string)
    requires Valid(now)
    ensures |p| == |host| + 11
    ensures p[..|host|] == host && p[|host|] == '/'
    ensures ParseIsoDate(p[|host| + 1..]) == Some(DateOf(now))
  {
    var p := host + "/" + IsoDate(DateOf(now));
    assert p[|host| + 1..] == IsoDate(DateOf(now));
    ParseIsoDateOfIsoDate(DateOf(now));
    p
  }

  /** The image path of a host depends on the date of `now` and on nothing else:
      two timestamps share it exactly when they fall on the same day. */
  lemma {:induction false} GetImagePathDateOnly(host: string, t1: Timestamp, t2: Timestamp)
    requires Valid(t1) && Valid(t2)
    ensures GetImagePath(host, t1) == GetImagePath(host, t2) <==> DateOf(t1) == DateOf(t2)
  {
    if GetImagePath(host, t1) == GetImagePath(host, t2) {
      var p := GetImagePath(host, t1);
      assert Some(DateOf(t1)) == ParseIsoDate(p[|host| + 1..]) == Some(DateOf(t2));
    }
  }

  /** `"img_%s.jpg" % now.strftime("%Y%m%d%H%M%S")`. Python 2's `strftime`
      raises ValueError for years before 1900. */
  function ImageName(now: Timestamp): (r: Result<string>)
    requires Valid(now)
    ensures r.Err? <==> now.year < 1900
    ensures r.Err? ==> r.error == YearBefore1900
    ensures r.Ok? ==> |r.value| == 22 && r.value[..4] == "img_" && r.value[18..] == ".jpg"
    ensures r.Ok? ==> AllDigits(r.value[4..18])
  {
    if now.year < 1900 then Err(YearBefore1900)
    else
      var stamp := Stamp(now);
      var name := "img_" + stamp + ".jpg";
      assert name[..4] == "img_" && name[4..18] == stamp && name[18..] == ".jpg";
      Ok(name)
  }

  /** Reads the timestamp back out of an image name. */
  function ParseImageName(s: string): (r: Option<Timestamp>)
    ensures r.Some? ==> Valid(r.value) && r.value.year >= 1900
  {
    if |s| == 22 && s[..4] == "img_" && s[18..] == ".jpg" then ParseStamp(s[4..18]) else None
  }

  /** Reading an image name back gives the timestamp it was made from. */
  lemma {:induction false} ParseImageNameOfImageName(now: Timestamp)
    requires Valid(now) && now.year >= 1900
    ensures ParseImageName(ImageName(now).value) == Some(now)
  {
    var name := ImageName(now).value;
    assert name[4..18] == Stamp(now);
    ParseStampOfStamp(now);
  }

  /** Every string `ParseImageName` accepts is the name `ImageName` gives its timestamp. */
  lemma {:induction false} ImageNameOfParse(s: string)
    requires ParseImageName(s).Some?
    ensures ImageName(ParseImageName(s).value) == Ok(s)
  {
    var stamp := s[4..18];
    var t := ParseStamp(stamp).value;
    StampOfParse(stamp);
    assert ImageName(t) == Ok("img_" + stamp + ".jpg");
    assert s == s[..4] + stamp + s[18..];
  }

  /** Two snapshots get the same name exactly when they are taken in the same second. */
  lemma {:induction false} ImageNameInjective(t1: Timestamp, t2: Timestamp)
    requires Valid(t1) && Valid(t2) && t1.year >= 1900 && t2.year >= 1900
    ensures ImageName(t1) == ImageName(t2) <==> t1 == t2
  {
    if ImageName(t1) == ImageName(t2) {
      ParseImageNameOfImageName(t1);
      ParseImageNameOfImageName(t2);
    }
  }

  /** The eight digits after "img_" are the directory's ISO date without its dashes. */
  lemma {:induction false} ImageNameMatchesDirectory(host: string, now: Timestamp)
    requires Valid(now) && now.year >= 1900
    ensures ImageName(now).value[4..12] == StripDashes(GetImagePath(host, now)[|host| + 1..])
  {
    StampDatePrefix(now);
    var name := ImageName(now).value;
    assert name[4..12] == Stamp(now)[..8];
    assert GetImagePath(host, now)[|host| + 1..] == IsoDate(DateOf(now));
  }

  /** The directory `snapshot` stores into: the image root, a '/', the host,
      a '/', and the ISO date of `now`. */
  function ImageDirectory(host: string, now: Timestamp): (d: string)
    requires Valid(now)
    ensures |d| == |ImageRoot| + |host| + 12
    ensures d[..|ImageRoot| + 1] == ImageRoot + "/"
    ensures d[|ImageRoot| + 1..|ImageRoot| + 1 + |host|] == host
    ensures d[|d| - 11] == '/' && ParseIsoDate(d[|d| - 10..]) == Some(DateOf(now))
  {
    var p := GetImagePath(host, now);
    var d := ImageRoot + "/" + p;
    assert d[..|ImageRoot| + 1] == ImageRoot + "/";
    assert d[|ImageRoot| + 1..|ImageRoot| + 1 + |host|] == p[..|host|];
    assert d[|d| - 11] == p[|host|];
    assert d[|d| - 10..] == p[|host| + 1..];
    d
  }

  /** The file `snapshot` creates: `name` directly inside the image
      directory. A name without '/' has exactly the directory and the
      directory's ancestors as ancestors. */
  function ImageFile(host: string, now: Timestamp, name: string): (f: string)
    requires Valid(now)
    ensures |f| == |ImageDirectory(host, now)| + 1 + |name|
    ensures f[..|ImageDirectory(host, now)|] == ImageDirectory(host, now)
    ensures f[|ImageDirectory(host, now)|] == '/' && f[|ImageDirectory(host, now)| + 1..] == name
    ensures (forall k :: 0 <= k < |name| ==> name[k] != '/') ==>
              Ancestors(f) == Ancestors(ImageDirectory(host, now)) + {ImageDirectory(host, now)}
  {
    var d := ImageDirectory(host, now);
    var f := d + "/" + name;
    assert f[..|d|] == d && f[|d| + 1..] == name;
    if forall k :: 0 <= k < |name| ==> name[k] != '/' then
      AncestorsOfChild(d, name);
      f
    else
      f
  }

  /** What `snapshot` returned (or raised) and the filesystem after it. */
  datatype SnapshotRun = SnapshotRun(out: Result<string>, fs: Fs)

  /** The persistence half of `snapshot`: ensure the directory, then create
      the file exclusively and write the payload. The returned name is the
      one the file was created under. */
  function StoreImage(fs: Fs, dir: string, name: string, body: seq<byte>): (r: SnapshotRun)
    ensures r.out.Ok? ==> r.out.value == name && dir + "/" + name in r.fs && r.fs[dir + "/" + name] == File(body)
    ensures r.out.Err? ==> r.out.error == NotADirectory || r.out.error == AlreadyExists || r.out.error == MissingParent
    ensures forall p :: p in fs ==> p in r.fs && r.fs[p] == fs[p]
    ensures forall p :: p in r.fs && p !in fs ==>
              r.fs[p] == Directory || (r.out.Ok? && p == dir + "/" + name)
    ensures forall p :: p in r.fs && p !in fs ==>
              p == dir || p in Ancestors(dir) || (r.out.Ok? && p == dir + "/" + name)
    ensures !CanMakeDirs(fs, dir) ==> r == SnapshotRun(Err(NotADirectory), fs)
    ensures CanMakeDirs(fs, dir) && dir + "/" + name in fs ==> r.out == Err(AlreadyExists)
  {
    match MakeDirs(fs, dir)
    case Err(e) => SnapshotRun(Err(e), fs)
    case Ok(fs1) =>
      match CreateExclusive(fs1, dir + "/" + name, body)
      case Err(e) => SnapshotRun(Err(e), fs1)
      case Ok(fs2) => SnapshotRun(Ok(name), fs2)
  }

  /** `snapshot(host)` taken at `now`, with `fetch` the outcome of the GET on
      the camera's snapshot endpoint. Every failure propagates: the fetch's,
      strftime's, makedirs', and that of the exclusive create, whose OSError
      the `except IOError` handler does not catch. */
  function TakeSnapshot(fs: Fs, host: string, now: Timestamp, fetch: D.Delivery): (r: SnapshotRun)
    requires Valid(now)
    ensures fetch.ConnectRefused? ==> r == SnapshotRun(Err(ConnectFailed), fs)
    ensures fetch.ReadFailed? ==> r == SnapshotRun(Err(TransportFailed), fs)
    ensures r.out.Ok? ==> fetch.Delivered? && ImageName(now) == r.out
    ensures r.out.Ok? ==> ImageFile(host, now, r.out.value) in r.fs
                          && r.fs[ImageFile(host, now, r.out.value)] == File(fetch.body)
    ensures forall p :: p in fs ==> p in r.fs && r.fs[p] == fs[p]
    ensures forall p :: p in r.fs && p !in fs ==>
              r.fs[p] == Directory || (r.out.Ok? && p == ImageFile(host, now, r.out.value))
    ensures forall p :: p in r.fs && p !in fs ==>
              p == ImageDirectory(host, now) || p in Ancestors(ImageDirectory(host, now))
              || (r.out.Ok? && p == ImageFile(host, now, r.out.value))
    ensures fetch.Delivered? && now.year < 1900 ==> r == SnapshotRun(Err(YearBefore1900), fs)
    ensures (fetch.Delivered? && now.year >= 1900 && !CanMakeDirs(fs, ImageDirectory(host, now)))
              ==> r == SnapshotRun(Err(NotADirectory), fs)
    ensures (fetch.Delivered? && now.year >= 1900 && CanMakeDirs(fs, ImageDirectory(host, now))
             && ImageFile(host, now, ImageName(now).value) in fs)
              ==> r.out == Err(AlreadyExists)
  {
    match fetch
    case ConnectRefused => SnapshotRun(Err(ConnectFailed), fs)
    case ReadFailed => SnapshotRun(Err(TransportFailed), fs)
    case Delivered(body) =>
      match ImageName(now)
      case Err(e) => SnapshotRun(Err(e), fs)
      case Ok(name) => StoreImage(fs, ImageDirectory(host, now), name, body)
  }

  /** An image name contains no '/', so it names an entry directly inside the directory. */
  lemma {:induction false} ImageNameHasNoSlash(now: Timestamp)
    requires Valid(now) && now.year >= 1900
    ensures forall k :: 0 <= k < |ImageName(now).value| ==> ImageName(now).value[k] != '/'
  {
    var name := ImageName(now).value;
    forall k | 0 <= k < |name|
      ensures name[k] != '/'
    {
      if 4 <= k < 18 {
        assert name[k] == name[4..18][k - 4];
      } else if k < 4 {
        assert name[k] == name[..4][k];
      } else {
        assert name[k] == name[18..][k - 18];
      }
    }
  }

  /** On a well-formed tree a snapshot succeeds exactly when the fetch was
      delivered, the year can be formatted, the directory can be ensured and
      the image name is still free; success keeps the tree well-formed. */
  lemma {:induction false} SnapshotSucceedsIff(fs: Fs, host: string, now: Timestamp, fetch: D.Delivery)
    requires Valid(now) && Wf(fs)
    ensures var r := TakeSnapshot(fs, host, now, fetch);
            && Wf(r.fs)
            && (r.out.Ok? <==>
                  && fetch.Delivered?
                  && now.year >= 1900
                  && CanMakeDirs(fs, ImageDirectory(host, now))
                  && ImageFile(host, now, ImageName(now).value) !in fs)
  {
    if fetch.Delivered? && now.year >= 1900 && CanMakeDirs(fs, ImageDirectory(host, now)) {
      var dir := ImageDirectory(host, now);
      var name := ImageName(now).value;
      var fs1 := MakeDirs(fs, dir).value;
      MakeDirsPreservesWf(fs, dir);
      ImageNameHasNoSlash(now);
      var file := ImageFile(host, now, name);
      assert Ancestors(file) == Ancestors(dir) + {dir};
      if CreateExclusive(fs1, file, fetch.body).Ok? {
        CreateExclusivePreservesWf(fs1, file, fetch.body);
      }
    }
  }

  /** Two snapshots of one host in the same second: at most one writes, and
      the file keeps the first payload. On a well-formed tree where the name
      is free, exactly the first succeeds. */
  lemma {:induction false} SameSecondWritesOnce(fs: Fs, host: string, now: Timestamp, first: seq<byte>, second: seq<byte>)
    requires Valid(now)
    ensures var r1 := TakeSnapshot(fs, host, now, D.Delivered(first));
            var r2 := TakeSnapshot(r1.fs, host, now, D.Delivered(second));
            && !(r1.out.Ok? && r2.out.Ok?)
            && (r1.out.Ok? ==> r2 == SnapshotRun(Err(AlreadyExists), r1.fs)
                               && r2.fs[ImageFile(host, now, r1.out.value)] == File(first))
            && ((Wf(fs) && now.year >= 1900 && CanMakeDirs(fs, ImageDirectory(host, now))
                 && ImageFile(host, now, ImageName(now).value) !in fs) ==> r1.out.Ok? && r2.out.Err?)
  {
    var r1 := TakeSnapshot(fs, host, now, D.Delivered(first));
    if Wf(fs) {
      SnapshotSucceedsIff(fs, host, now, D.Delivered(first));
    }
    if r1.out.Ok? {
      var dir := ImageDirectory(host, now);
      assert IsDir(r1.fs, dir);
      assert MakeDirs(r1.fs, dir) == Ok(r1.fs);
    }
  }

  /** On an empty tree a delivered snapshot with a formattable year always
      succeeds, creating the directory chain and the file. */
  lemma {:induction false} SnapshotOnEmptyTree(host: string, now: Timestamp, body: seq<byte>)
    requires Valid(now) && now.year >= 1900
    ensures var r := TakeSnapshot(map[], host, now, D.Delivered(body));
            && r.out == ImageName(now)
            && r.fs[ImageFile(host, now, r.out.value)] == File(body)
  {
    SnapshotSucceedsIff(map[], host, now, D.Delivered(body));
    assert CanMakeDirs(map[], ImageDirectory(host, now));
  }
}
